=== FILE: README.md ===
# Third-person character controller and input, modelled in Dafny

This project models the engine-independent logic of a browser 3D demo's character
controller (`CharacterController`) and its input component (`PlayerInput`), plus the
scene bootstrap's rule that gives environment meshes their colliders. Everything is a
pure step function over immutable records:

- **Input** (`Keys`, `Smoothing`, `PlayerInput`, `InputCoherence`, `Device`): the
  case-insensitive key table fed by keydown/keyup events; the keyboard refresh (W/S and
  A/D pairs, up and left winning, the 0.2 smoothing, the reset to 0 on release, the
  inverted sign between `horizontalAxis` and the horizontal target); the virtual-joystick
  refresh (both sticks required, the `maxDelta/2` dead zone, the right stick's `/5`
  camera offsets) which runs after the keyboard refresh, sets the discrete axes itself and
  smooths from the values the keyboard refresh just wrote;
  `isMoving`, `isRunning`, `jumpKeyDown`; and the user-agent mobile test.
- **Controller** (`Jump`, `Heading`, `Animation`, `CharacterController`): the jump and
  vertical-velocity state machine with the constants of character.controller.ts; the 8-way target yaw,
  written as `-alpha + k*pi/4` with an integer `k`; the idle/walk/run selector with its
  optional clip slots; the player speed and the scalar part of the movement vector; and
  the order of the steps inside `update` and inside a rendered frame.
- **Scene setup** (`SceneSetup`): the per-mesh classification into box and exact-mesh
  colliders by name fragments.

Reals are exact. `deltaTime` is in milliseconds as the engine delivers it; the jump timer
is in seconds, as in character.controller.ts (`deltaTime / 1000`). `Scalar.Lerp(a, b, t)` is taken as
`a + (b - a) * t`. Engine objects become plain values: an animation group is a
`Ref` (`Undefined`, `Null` or `Group(id)`), a joystick is its pressed flag and
displacement, the camera is its two inertial offsets (`CameraOffsets`) while its orbit angle `alpha` is a
parameter of the heading (`Heading.AngleOf`), the avatar's current
yaw is a parameter.

Behaviour of the code that the model keeps and a reader may not expect:

- In the frame a jump starts the velocity is `jumpHeight - gravity*deltaTime`, not
  `jumpHeight`: gravity is applied in the same call (`Jump.JumpStart`).
- The jump key is not edge-triggered: holding it through a landing starts a new jump on
  the next frame (`Jump.HeldKeyJumpsAgain`).
- With both W and S (or both A and D) held, the first of the pair wins; the axis is not 0.
- The joystick refresh runs every frame after the keyboard refresh, on any device where
  both sticks exist. It decides the discrete axes and the camera offsets alone
  (`PlayerInput.JoystickOverridesKeyboard`), but it smooths from the value the keyboard
  refresh has just written, and that value is 0 whenever no key of the pair is held. On a
  touch device without a keyboard the smoothed value is therefore always 0 or exactly
  0.2 times its axis sign and never builds up towards 1
  (`PlayerInput.TouchAxesStayAtOneFifth`).
- The selector compares the previous group with the run slot by reference. An absent
  slot is `null` while the never-assigned previous group is `undefined`, so with no run
  clip the RUNNING branch fires whenever the recorded group is not `null`: once while
  running and moving, and on every other frame while running in place when an idle clip exists.
- Running while standing still makes the selector alternate RUNNING, IDLE, RUNNING, ...
  on every frame (`Animation.RunningInPlaceOscillates`).
- Under exact arithmetic there is no frame in which a discrete axis is set while its
  smoothed value is still 0. Every reachable smoothed value is 0 or `m/5^n` with 5 not
  dividing `m`, so `isMoving` holds exactly when an axis is non-zero
  (`InputCoherence.MovingIffAxisSet`), and the avatar translates exactly when it has a
  heading to turn to (`CharacterController.TickKeepsReachable`). A floating-point run
  could differ only through rounding.

## Model

| member | source | states |
|---|---|---|
| `Text.IndexFrom` | src/libs/controller/player.input.ts:178 | the search behind `indexOf`, for a start no later than the end of the text (player.input.ts always starts at 0): the first position at or after the start where the fragment occurs, and -1 exactly when there is none |
| `Text.IndexOf` | src/libs/controller/player.input.ts:178 | `indexOf`: -1 iff the fragment occurs nowhere; otherwise the first occurrence |
| `Text.Contains` | src/App.tsx:89 | `includes` (`indexOf > -1`) holds iff the fragment occurs at some position |
| `Text.LowerIdempotent` | src/libs/controller/player.input.ts:70 | lower-casing an already lower-cased key changes nothing |
| `Text.MatchIgnoringCaseIsLowerMatch` | src/libs/controller/player.input.ts:183-185 | a case-insensitive literal match at a position is the same as matching the lower-cased pattern in the lower-cased text |
| `Keys.PressKey` | src/libs/controller/player.input.ts:28-30 | after keydown, a key reads as pressed iff it equals the event's key up to case or was pressed before |
| `Keys.ReleaseKey` | src/libs/controller/player.input.ts:33-35 | after keyup, a key reads as pressed iff it differs from the event's key up to case and was pressed before |
| `Keys.PressedIffLastEventDown` | src/libs/controller/player.input.ts:28-35 | after any event sequence a key is pressed iff the last event for it (ignoring case) was a keydown; with no such event it reads as before |
| `Keys.LookupIgnoresCase` | src/libs/controller/player.input.ts:69-72 | looking up a key and looking up its lower-cased form agree |
| `Keys.NeverSeenIsReleased` | src/libs/controller/player.input.ts:69-72 | a key never seen reads as not pressed |
| `Smoothing.Smooth` | src/libs/controller/player.input.ts:117 | one lerp step at rate 0.2 leaves exactly 0.8 of the distance to the target and keeps a value in [-1, 1] when the target is ±1 |
| `Smoothing.SmoothApproaches` | src/libs/controller/player.input.ts:116-133 | a step lands strictly between the value and the target, never overshooting |
| `Smoothing.SmoothNDistance` | src/libs/controller/player.input.ts:116-118 | after n steps towards the same target the distance is 0.8^n times the initial distance |
| `Smoothing.ConvergenceRate` | src/libs/controller/player.input.ts:116-118 | from anywhere in [-1, 1], after m steps towards ±1 the distance is at most 8/(4+m), so it gets arbitrarily small |
| `PlayerInput.UpdateFromKeyboard` | src/libs/controller/player.input.ts:114-145 | vertical axis 1 iff up held, -1 iff down held and up not; horizontal axis 1 iff left held, -1 iff right held and left not; a held key shrinks the distance to the target by 0.8, with the horizontal target opposite to `horizontalAxis`; no key of a pair resets both fields to 0; jump flag mirrors space; keys unchanged; values stay in [-1, 1] |
| `PlayerInput.StickAxis` | src/libs/controller/player.input.ts:83-99 | inside the dead zone `|d| <= maxDelta/2` value and axis are 0; outside it the axis is the sign of d and the value moves a fifth of the way to it |
| `PlayerInput.UpdateFromJoystick` | src/libs/controller/player.input.ts:74-112 | no-op unless both sticks exist; a released left stick zeroes the four axis fields; a pressed one applies the dead-zone rule per axis; a pressed right stick subtracts dx/5 from the yaw offset and adds dy/5 to the pitch offset and nothing else; keys and jump flag unchanged |
| `PlayerInput.Refresh` | src/libs/controller/player.input.ts:62-65 | the before-render callback is the keyboard update followed by the joystick update: without both sticks it is the keyboard update alone; with both, a pressed right stick moves the camera offsets by -dx/5 and +dy/5 and a released one leaves them; a pressed left stick applies the dead-zone rule to each value the keyboard update just wrote, and a released one zeroes the four axis fields |
| `PlayerInput.JoystickOverridesKeyboard` | src/libs/controller/player.input.ts:62-65 | with both sticks present the discrete axes and camera offsets after a refresh do not depend on the keys at all |
| `PlayerInput.TouchAxesStayAtOneFifth` | src/libs/controller/player.input.ts:83-99 | with both sticks and no direction key held, each smoothed value after a refresh is exactly 0.2 times its discrete axis, because the keyboard update (lines 122-124, 134-136) has just reset it to 0 |
| `PlayerInput.HoldingUpSmoothsVertical` | src/libs/controller/player.input.ts:116-118 | holding up for n desktop frames takes the vertical value exactly n smoothing steps towards 1 |
| `InputCoherence.InitialIsCoherent` | src/libs/controller/player.input.ts:14-19 | the constructed input state satisfies the axis invariant |
| `InputCoherence.SmoothIsFiveAdic` | src/libs/controller/player.input.ts:117 | a smoothing step towards ±1 from 0 or from a value m/5^n lands on a value m'/5^(n+1) with 5 not dividing m', hence never on 0 |
| `InputCoherence.KeyEventsKeepCoherent` | src/libs/controller/player.input.ts:28-35 | key events, which touch only the key table, keep the axis invariant |
| `InputCoherence.KeyboardKeepsCoherent` | src/libs/controller/player.input.ts:114-137 | the keyboard update keeps the invariant: a discrete axis is 0 iff its smoothed value is 0, values in [-1, 1] |
| `InputCoherence.JoystickKeepsCoherent` | src/libs/controller/player.input.ts:79-105 | the joystick update keeps the same invariant |
| `InputCoherence.RefreshKeepsCoherent` | src/libs/controller/player.input.ts:62-65 | a whole refresh keeps the invariant |
| `InputCoherence.MovingIffAxisSet` | src/libs/controller/player.input.ts:147-149 | in every reachable state `isMoving` holds iff a discrete axis is non-zero |
| `Device.IsAndroid` | src/libs/controller/player.input.ts:177-179 | holds iff "android" occurs in the lower-cased user agent |
| `Device.IsIos` | src/libs/controller/player.input.ts:181-187 | holds iff "iPhone", "iPad" or "iPod" matches the user agent ignoring case |
| `Device.IsMobile` | src/libs/controller/player.input.ts:189-191 | holds iff the user agent is Android or iOS by the two rules above |
| `Device.IphoneIsMobile` | src/libs/controller/player.input.ts:181-191 | a typical iPhone user agent is mobile |
| `Device.UpperCaseAndroidIsMobile` | src/libs/controller/player.input.ts:177-179 | "ANDROID" is mobile: case is ignored |
| `Device.ShortAgentIsDesktop` | src/libs/controller/player.input.ts:189-191 | a user agent shorter than every word is not mobile |
| `Jump.Step` | src/libs/controller/character.controller.ts:146-167 | keeps the timer in [0, 0.9) and 0 on the ground; after a grounded frame the velocity is exactly -gravity*deltaTime; it is airborne only if it was or the key is down |
| `Jump.InitialIsValid` | src/libs/controller/character.controller.ts:15-20 | the constructed state (not jumping, timer 0) satisfies the timer invariant |
| `Jump.JumpStart` | src/libs/controller/character.controller.ts:147-166 | on the ground with the key down the frame ends airborne with timer deltaTime/1000 and velocity jumpHeight - gravity*deltaTime, unless that frame alone reaches the air time; without the key it stays grounded |
| `Jump.KeyIgnoredMidJump` | src/libs/controller/character.controller.ts:147-152 | during a jump the key has no effect: no restart, no timer or velocity reset |
| `Jump.AirborneFrame` | src/libs/controller/character.controller.ts:154-166 | an airborne frame stays airborne iff timer + deltaTime/1000 < 0.9; if it does the timer advances by the frame and the velocity drops by exactly gravity*deltaTime; if not it lands with timer 0 and velocity -gravity*deltaTime |
| `Jump.HeldKeyJumpsAgain` | src/libs/controller/character.controller.ts:147-160 | holding the key through the landing frame starts a new jump on the next frame |
| `Jump.RunKeepsValid` | src/libs/controller/character.controller.ts:154-160 | any sequence of frames from a valid state ends in a valid state |
| `Jump.AirborneRun` | src/libs/controller/character.controller.ts:154-163 | n airborne frames inside the air time advance the timer by n frame times and take n frames of gravity off the velocity, whatever the key does |
| `Jump.AirborneRunProduct` | src/libs/controller/character.controller.ts:154-163 | n airborne frames inside the air time advance the timer by n*deltaTime/1000 and lower the velocity by n*gravity*deltaTime |
| `Jump.JumpTrajectory` | src/libs/controller/character.controller.ts:146-167 | pressing on the ground and then n more frames inside the air time: airborne, velocity jumpHeight minus n+1 frames of gravity |
| `Heading.TargetYaw` | src/libs/controller/character.controller.ts:104-143 | the current yaw is kept iff both axes are 0; every other axis pair picks an eighth-turn index in -4..3 |
| `Heading.TargetAngle` | src/libs/controller/character.controller.ts:104-143 | the angle arithmetic of the `targetPlayerRotation` getter; with both axes 0 it is the avatar's current yaw |
| `Heading.TargetAngleIsEighths` | src/libs/controller/character.controller.ts:105-142 | the angle computed by the `targetPlayerRotation` getter equals -alpha + k*pi/4 for the index chosen, for every alpha and pi |
| `Heading.DirectionsDistinct` | src/libs/controller/character.controller.ts:111-141 | the eight non-zero axis pairs give eight different directions modulo a full turn |
| `Heading.OppositeIsHalfTurn` | src/libs/controller/character.controller.ts:106-141 | negating both axes turns the target by half a turn |
| `Heading.DiagonalBisects` | src/libs/controller/character.controller.ts:111-141 | each diagonal lies an eighth-turn from each of its two neighbouring cardinals, between them |
| `Heading.CardinalsQuarterTurnApart` | src/libs/controller/character.controller.ts:106-109 | a horizontal and a vertical cardinal are a quarter-turn apart |
| `Animation.UpdateAnimation` | src/libs/controller/character.controller.ts:178-210 | with no clip slot nothing changes; at most two calls; no calls when the state is kept; a transition stops the previously recorded group first and plays the newly recorded group, looping, last; the recorded group stays the slot of the recorded name |
| `Animation.SelectionTable` | src/libs/controller/character.controller.ts:179-209 | running with a previous group other than the run slot gives RUNNING; walking when not running, moving and not already WALKING; IDLE when not moving, not already IDLE and the RUNNING branch did not fire; running and moving on the run group changes nothing; whenever none of the three branches fires, nothing is recorded and no call is made |
| `Animation.OneClipPlaying` | src/libs/controller/character.controller.ts:184-207 | if the engine plays exactly the recorded group before a call it does so after it, so at most one clip ever plays |
| `Animation.RunningSticks` | src/libs/controller/character.controller.ts:179-188 | running and moving selects RUNNING within one frame and then stays there with no calls |
| `Animation.RunningInPlaceOscillates` | src/libs/controller/character.controller.ts:179-209 | running while not moving, from the initial state, gives RUNNING on every odd frame and IDLE on every even frame; every frame after the first stops the previous clip and plays the new one |
| `Animation.NotIdempotent` | src/libs/controller/character.controller.ts:179-209 | running in place, a second call always changes the state the first call produced |
| `CharacterController.MoveForward` | src/libs/controller/character.controller.ts:76-81 | the vertical component is the current velocity; no forward motion iff not moving; forward at 2*speed when running, speed otherwise |
| `CharacterController.RunningDoublesSpeed` | src/libs/controller/character.controller.ts:65-67 | the running speed is twice the walking speed, which is positive |
| `CharacterController.Update` | src/libs/controller/character.controller.ts:69-74 | the translation of a frame carries the velocity computed in the same frame; on the ground that is -gravity*deltaTime; the yaw is kept iff both axes are 0; forward motion iff moving, and then at `playerSpeed` (`_speed`, doubled while running); the clip calls handed to the engine leave exactly the newly recorded group playing when the previous one was, and there are none when the recorded animation is unchanged; the jump and animation invariants are kept |
| `CharacterController.JumpFrameMovesUp` | src/libs/controller/character.controller.ts:69-72 | in the frame a jump starts the movement's vertical component is jumpHeight - gravity*deltaTime |
| `CharacterController.AnimationIgnoresJump` | src/libs/controller/character.controller.ts:69-74 | the jump key changes neither the animation state, nor the clip calls, nor the target yaw |
| `CharacterController.Tick` | src/App.tsx:155-158 | a frame applies the key events to the key table before the refresh, so the same frame's jump flag, axes (the keyboard update of the new table when the sticks are missing), jump step, heading, translation and animation all read the new keys; a moving avatar goes at `playerSpeed` of the new input; the camera offsets change only by a pressed right stick (both sticks present), by -dx/5 and +dy/5; the frame's clip calls take the playing set from the previous recorded group to the new one |
| `CharacterController.InitialIsReachable` | src/libs/controller/character.controller.ts:15-33 | the constructed world satisfies the frame invariant |
| `CharacterController.TickKeepsReachable` | src/libs/controller/character.controller.ts:69-81 | every frame keeps the input, jump and animation invariants, and the avatar translates exactly when it has a heading target |
| `CharacterController.HoldingForwardAndShift` | src/libs/controller/character.controller.ts:65-81 | while forward and shift stay held on a desktop, every frame moves forward at twice the base speed and keeps RUNNING with no clip calls |
| `CharacterController.ForwardShiftFromStart` | src/libs/controller/character.controller.ts:65-81 | from the start, pressing forward and shift gives RUNNING and double speed in the first frame and keeps them in every later frame |
| `SceneSetup.AnyIncluded` | src/App.tsx:87-91 | `some` over a fragment list holds iff one lower-cased fragment occurs in the lower-cased name |
| `SceneSetup.ListsAreRules` | src/App.tsx:78-79 | the two lists are exactly the rules "ground/box/cube/plane" and "sofa/chair" |
| `SceneSetup.PatternsAreLowerCase` | src/App.tsx:89 | lower-casing the fragments changes nothing |
| `SceneSetup.ClassifyMesh` | src/App.tsx:80-101 | collision checks always on; a box aggregate iff a box fragment occurs in the lower-cased name; a mesh aggregate iff a mesh fragment does; every aggregate has mass 0; no shape twice |
| `SceneSetup.ClassifyAll` | src/App.tsx:80-102 | one setup per mesh, in order, each by the per-mesh rule |
| `SceneSetup.BothLists` | src/App.tsx:87-101 | a name matching both lists gets a box and a mesh aggregate |
| `SceneSetup.OneBoxForManyFragments` | src/App.tsx:87-94 | a name matching two box fragments still gets exactly one box aggregate |
| `SceneSetup.NeitherList` | src/App.tsx:80-101 | a name matching neither list gets no aggregate but keeps collision checks |

## Left out

- Quaternion work in `_updatePlayerRotation` (yaw-pitch-roll construction, inverse of the camera quaternion, the 0.1 slerp) and `toEulerAngles`: engine geometry; the model stops at the target yaw, and the current yaw is a parameter.
- `getDirection`, `moveWithCollisions` and `setLinearVelocity`: engine and physics calls; the model gives the scalars passed to them (the forward scale and the y override).
- Physics aggregate construction for the capsule and for the environment meshes: the model records which aggregates would be created (shape and mass), not what the physics engine does with them.
- Havok loading, scene, camera, light, model and animation loading in App.tsx, `importModel` and `importAnimation`: asynchronous calls into the engine.
- VirtualJoystick construction and canvas styling, ActionManager registration and observable wiring: the model takes key events as values and orders the two per-frame callbacks explicitly.
- React mounting, the debug layer and `console.log`.
- IEEE floating point: reals are exact, so rounding effects (for instance a smoothed axis rounding to 0) are not modelled.
- `toLowerCase`, `toLocaleLowerCase` and the `/i` regular-expression flag are modelled for ASCII letters only; other Unicode case mappings are not.
- `Text.LowerIdempotent`: states idempotence for the ASCII lower-casing only, for the reason above.
- `Keys.NeverSeenIsReleased`: the key table is modelled as a map without prototype inheritance. In player.input.ts it is a plain object, so a lookup of an inherited name such as "constructor" reads as pressed with no event; the program only looks up fixed key names, none of them inherited.
- The engine's own per-frame decay of the camera's inertial offsets: `World.cam` holds the offsets as the input component leaves them, without the camera's inertia applied between frames.
- The engine's animation playback is reduced to the set of playing clips implied by `stop` and `play` calls.

=== FILE: Animation.dfy ===
/** The controller's animation selector: at most one stop-then-play transition per frame
    between the idle, walking and running clips. */
module Animation {
  import opened Common

  type ClipId = nat

  /** A reference to an animation group as the controller holds it: `undefined` (never
      assigned), `null` (the scene had no group of that name) or a group. The two absent
      forms differ under strict equality, and the selector compares references. */
  datatype Ref = Undefined | Null | Group(id: ClipId)

  datatype AnimName = Idle | Walking | Running

  /** The three clip slots looked up by name at construction (a lookup yields a group or
      null). */
  datatype Slots = Slots(idle: Ref, walk: Ref, run: Ref)

  /** The recorded previous animation: `_prevAnimationName` and `_prevAnimationGroup`. */
  datatype AnimState = AnimState(prevName: Option<AnimName>, prevGroup: Ref)

  /** Nothing recorded yet. */
  const Initial: AnimState := AnimState(None, Undefined)

  /** A call made on an animation group. */
  datatype ClipCall = Stop(id: ClipId) | Play(id: ClipId, loop: bool)

  /** The outcome of one selector call: the recorded state and the calls made, in order. */
  datatype AnimStep = AnimStep(state: AnimState, calls: seq<ClipCall>)

  /** Slots as the lookups produce them: never `undefined`, distinct groups for distinct
      names. */
  predicate WellFormed(slots: Slots) {
    && !slots.idle.Undefined? && !slots.walk.Undefined? && !slots.run.Undefined?
    && (slots.idle.Group? && slots.walk.Group? ==> slots.idle != slots.walk)
    && (slots.idle.Group? && slots.run.Group? ==> slots.idle != slots.run)
    && (slots.walk.Group? && slots.run.Group? ==> slots.walk != slots.run)
  }

  predicate AnySlot(slots: Slots) {
    slots.idle.Group? || slots.walk.Group? || slots.run.Group?
  }

  /** The recorded group is the slot of the recorded name. */
  predicate Consistent(slots: Slots, st: AnimState) {
    match st.prevName
    case None => st.prevGroup == Undefined
    case Some(Idle) => st.prevGroup == slots.idle
    case Some(Walking) => st.prevGroup == slots.walk
    case Some(Running) => st.prevGroup == slots.run
  }

  /** `group?.stop()` and `group?.play(true)` on an optional reference. */
  function StopCalls(g: Ref): seq<ClipCall> {
    if g.Group? then [Stop(g.id)] else []
  }

  function PlayCalls(g: Ref): seq<ClipCall> {
    if g.Group? then [Play(g.id, true)] else []
  }

  /** Record `name` and `group`, stopping the previous group and then playing the new one. */
  function Switch(st: AnimState, name: AnimName, group: Ref): AnimStep {
    AnimStep(AnimState(Some(name), group), StopCalls(st.prevGroup) + PlayCalls(group))
  }

  /** `_updatePlayerAnimation`. */
  function UpdateAnimation(slots: Slots, st: AnimState, isRunning: bool, isMoving: bool): (r: AnimStep)
    ensures !AnySlot(slots) ==> r == AnimStep(st, [])
    ensures |r.calls| <= 2
    ensures r.state == st ==> r.calls == []
    ensures r.state != st && st.prevGroup.Group? ==>
      |r.calls| > 0 && r.calls[0] == Stop(st.prevGroup.id)
    ensures r.state != st && r.state.prevGroup.Group? ==>
      |r.calls| > 0 && r.calls[|r.calls| - 1] == Play(r.state.prevGroup.id, true)
    ensures forall i :: 0 <= i < |r.calls| && r.calls[i].Stop? ==>
      i == 0 && st.prevGroup == Group(r.calls[i].id)
    ensures forall i :: 0 <= i < |r.calls| && r.calls[i].Play? ==>
      i == |r.calls| - 1 && r.calls[i].loop && r.state.prevGroup == Group(r.calls[i].id)
    ensures Consistent(slots, st) ==> Consistent(slots, r.state)
  {
    if AnySlot(slots) then
      if isRunning && st.prevGroup != slots.run then Switch(st, Running, slots.run)
      else if !isRunning && isMoving && st.prevName != Some(Walking) then Switch(st, Walking, slots.walk)
      else if !isMoving && st.prevName != Some(Idle) then Switch(st, Idle, slots.idle)
      else AnimStep(st, [])
    else AnimStep(st, [])
  }

  /** The post-state table of the selector, branch by branch in priority order; when no
      branch fires nothing is recorded and no call is made. */
  lemma SelectionTable(slots: Slots, st: AnimState, isRunning: bool, isMoving: bool)
    requires AnySlot(slots)
    ensures isRunning && st.prevGroup != slots.run ==>
      UpdateAnimation(slots, st, isRunning, isMoving).state == AnimState(Some(Running), slots.run)
    ensures !isRunning && isMoving && st.prevName != Some(Walking) ==>
      UpdateAnimation(slots, st, isRunning, isMoving).state == AnimState(Some(Walking), slots.walk)
    ensures !isMoving && st.prevName != Some(Idle) && !(isRunning && st.prevGroup != slots.run) ==>
      UpdateAnimation(slots, st, isRunning, isMoving).state == AnimState(Some(Idle), slots.idle)
    ensures isRunning && isMoving && st.prevGroup == slots.run ==>
      UpdateAnimation(slots, st, isRunning, isMoving) == AnimStep(st, [])
    ensures !(isRunning && st.prevGroup != slots.run) &&
            !(!isRunning && isMoving && st.prevName != Some(Walking)) &&
            !(!isMoving && st.prevName != Some(Idle)) ==>
      UpdateAnimation(slots, st, isRunning, isMoving) == AnimStep(st, [])
  {
  }

  /** The clips the engine is playing after a sequence of calls. */
  function Playing(before: set<ClipId>, calls: seq<ClipCall>): set<ClipId>
    decreases |calls|
  {
    if |calls| == 0 then before
    else
      var last := calls[|calls| - 1];
      var prior := Playing(before, calls[..|calls| - 1]);
      match last
      case Stop(id) => prior - {id}
      case Play(id, _) => prior + {id}
  }

  function RefIds(g: Ref): set<ClipId> {
    if g.Group? then {g.id} else {}
  }

  /** If the engine plays exactly the recorded group before a frame, it does so after it:
      at most one of the clips is ever playing. */
  lemma OneClipPlaying(slots: Slots, st: AnimState, isRunning: bool, isMoving: bool, playing: set<ClipId>)
    requires playing == RefIds(st.prevGroup)
    ensures Playing(playing, UpdateAnimation(slots, st, isRunning, isMoving).calls) ==
      RefIds(UpdateAnimation(slots, st, isRunning, isMoving).state.prevGroup)
    ensures |Playing(playing, UpdateAnimation(slots, st, isRunning, isMoving).calls)| <= 1
  {
    var r := UpdateAnimation(slots, st, isRunning, isMoving);
    var stops, plays := StopCalls(st.prevGroup), PlayCalls(r.state.prevGroup);
    if r.state != st {
      assert r.calls == stops + plays;
      assert Playing(playing, stops) == {};
      if plays != [] {
        assert (stops + plays)[..|stops + plays| - 1] == stops;
      }
    }
  }

  /** Running and moving: the running clip is selected within one frame and then stays,
      with no further calls. */
  lemma RunningSticks(slots: Slots, st: AnimState)
    requires WellFormed(slots) && slots.run.Group? && Consistent(slots, st)
    ensures UpdateAnimation(slots, st, true, true).state == AnimState(Some(Running), slots.run)
    ensures UpdateAnimation(slots, UpdateAnimation(slots, st, true, true).state, true, true) ==
      AnimStep(AnimState(Some(Running), slots.run), [])
  {
  }

  /** `n` frames with fixed input flags. */
  function Frames(slots: Slots, st: AnimState, isRunning: bool, isMoving: bool, n: nat): AnimState {
    if n == 0 then st else UpdateAnimation(slots, Frames(slots, st, isRunning, isMoving, n - 1), isRunning, isMoving).state
  }

  /** Running while standing still never settles: from the initial state the selector
      alternates between the running and the idle clip on every frame, and from the second
      frame on each frame stops the clip of the one before and plays its own. */
  lemma {:induction false} RunningInPlaceOscillates(slots: Slots, n: nat)
    requires WellFormed(slots) && slots.run != slots.idle
    ensures Frames(slots, Initial, true, false, 2 * n + 1) == AnimState(Some(Running), slots.run)
    ensures Frames(slots, Initial, true, false, 2 * n + 2) == AnimState(Some(Idle), slots.idle)
    ensures UpdateAnimation(slots, Frames(slots, Initial, true, false, 2 * n + 1), true, false).calls ==
      StopCalls(slots.run) + PlayCalls(slots.idle)
    ensures UpdateAnimation(slots, Frames(slots, Initial, true, false, 2 * n + 2), true, false).calls ==
      StopCalls(slots.idle) + PlayCalls(slots.run)
  {
    if n > 0 {
      RunningInPlaceOscillates(slots, n - 1);
      assert Frames(slots, Initial, true, false, 2 * n + 1) ==
        UpdateAnimation(slots, Frames(slots, Initial, true, false, 2 * n), true, false).state;
    }
  }

  /** Consequently the selector is not idempotent: two calls with the same flags differ
      from one call whenever it runs in place. */
  lemma NotIdempotent(slots: Slots, st: AnimState)
    requires WellFormed(slots) && slots.run != slots.idle && Consistent(slots, st)
    ensures UpdateAnimation(slots, UpdateAnimation(slots, st, true, false).state, true, false).state !=
      UpdateAnimation(slots, st, true, false).state
  {
  }
}

=== FILE: CharacterController.dfy ===
/** The character controller's per-frame update and the frame as the scene runs it: key
    events, the input refresh, then jump, rotation, translation and animation in that
    order. Engine geometry is reduced to the scalars handed to it. */
module CharacterController {
  import opened Common
  import opened Keys
  import opened PlayerInput
  import opened InputCoherence
  import Jump
  import opened Heading
  import opened Animation

  /** The base walking speed. */
  const Speed: real := 0.1

  /** `playerSpeed`. */
  function PlayerSpeed(isRunning: bool): real {
    if isRunning then Speed * 2.0 else Speed
  }

  /** The movement vector of `_movePlayerForward`, as the scale applied to the avatar's
      local forward direction and the vertical component that overrides its y. */
  datatype Movement = Movement(forward: real, up: real)

  /** `_movePlayerForward`: forward at the player speed while moving, no horizontal motion
      otherwise; the vertical component is the current velocity in every case. */
  function MoveForward(isMoving: bool, isRunning: bool, velocity: real): (r: Movement)
    ensures r.up == velocity
    ensures !isMoving <==> r.forward == 0.0
    ensures isMoving && isRunning ==> r.forward == 2.0 * Speed
    ensures isMoving && !isRunning ==> r.forward == Speed
  {
    var scale := if isMoving then 1.0 else 0.0;
    Movement(scale * PlayerSpeed(isRunning), velocity)
  }

  /** Running doubles the speed. */
  lemma RunningDoublesSpeed()
    ensures PlayerSpeed(true) == 2.0 * PlayerSpeed(false) && PlayerSpeed(false) > 0.0
  {
  }

  /** What the controller reads from the input component. */
  datatype InputView = InputView(
    horizontalAxis: Sign, verticalAxis: Sign, jumpKeyDown: bool, isMoving: bool, isRunning: bool)

  function View(s: InputState): InputView {
    InputView(s.horizontalAxis, s.verticalAxis, s.jumpKeyDown, IsMoving(s), IsRunning(s))
  }

  /** The controller's own state. */
  datatype Controller = Controller(jump: Jump.JumpState, anim: AnimState)

  const InitialController: Controller := Controller(Jump.Initial, Animation.Initial)

  /** What one update hands to the engine: the target yaw, the movement vector and the
      calls on animation groups. */
  datatype FrameOutput = FrameOutput(target: Target, move: Movement, calls: seq<ClipCall>)

  /** `update`: jump and velocity first, so that the translation of the same frame uses
      the velocity just computed; the animation is chosen last and ignores the jump. */
  function Update(c: Controller, slots: Slots, input: InputView, deltaTime: real)
    : (r: (Controller, FrameOutput))
    requires deltaTime >= 0.0
    ensures r.1.move.up == r.0.jump.velocity
    ensures !r.0.jump.jumping ==> r.1.move.up == -Jump.Gravity * deltaTime
    ensures r.1.target.KeepCurrent? <==> input.horizontalAxis == 0 && input.verticalAxis == 0
    ensures r.1.move.forward != 0.0 <==> input.isMoving
    ensures input.isMoving ==> r.1.move.forward == PlayerSpeed(input.isRunning)
    ensures Jump.Valid(c.jump) ==> Jump.Valid(r.0.jump)
    ensures Consistent(slots, c.anim) ==> Consistent(slots, r.0.anim)
    ensures Playing(RefIds(c.anim.prevGroup), r.1.calls) == RefIds(r.0.anim.prevGroup)
    ensures r.0.anim == c.anim ==> r.1.calls == []
  {
    OneClipPlaying(slots, c.anim, input.isRunning, input.isMoving, RefIds(c.anim.prevGroup));
    var jump := Jump.Step(c.jump, input.jumpKeyDown, deltaTime);
    var target := TargetYaw(input.horizontalAxis, input.verticalAxis);
    var move := MoveForward(input.isMoving, input.isRunning, jump.velocity);
    var anim := UpdateAnimation(slots, c.anim, input.isRunning, input.isMoving);
    (Controller(jump, anim.state), FrameOutput(target, move, anim.calls))
  }

  /** In the frame a jump starts the translation already carries the jump impulse less one
      frame of gravity. */
  lemma JumpFrameMovesUp(c: Controller, slots: Slots, input: InputView, deltaTime: real)
    requires deltaTime >= 0.0 && deltaTime / 1000.0 < Jump.JumpingMaxTime
    requires input.jumpKeyDown && !c.jump.jumping
    ensures Update(c, slots, input, deltaTime).1.move.up == Jump.JumpHeight - Jump.Gravity * deltaTime
  {
  }

  /** The jump key has no effect on the animation or on the heading. */
  lemma AnimationIgnoresJump(c: Controller, slots: Slots, input: InputView, deltaTime: real)
    requires deltaTime >= 0.0
    ensures Update(c, slots, input.(jumpKeyDown := true), deltaTime).0.anim ==
      Update(c, slots, input.(jumpKeyDown := false), deltaTime).0.anim
    ensures Update(c, slots, input.(jumpKeyDown := true), deltaTime).1.calls ==
      Update(c, slots, input.(jumpKeyDown := false), deltaTime).1.calls
    ensures Update(c, slots, input.(jumpKeyDown := true), deltaTime).1.target ==
      Update(c, slots, input.(jumpKeyDown := false), deltaTime).1.target
  {
  }

  /** Everything the running scene holds between frames. */
  datatype World = World(input: InputState, cam: CameraOffsets, ctrl: Controller)

  /** One rendered frame: the key events since the last frame, the input component's
      before-render callback (registered first), then the controller's. */
  function Tick(w: World, events: seq<KeyEvent>, sticks: Sticks, slots: Slots, deltaTime: real)
    : (r: (World, FrameOutput))
    requires deltaTime >= 0.0
    ensures r.0.input.keys == ApplyEvents(w.input.keys, events)
    ensures r.0.input.jumpKeyDown <==> IsKeyPressed(ApplyEvents(w.input.keys, events), " ")
    ensures sticks.left.None? || sticks.right.None? ==>
      r.0.input == UpdateFromKeyboard(w.input.(keys := ApplyEvents(w.input.keys, events)))
    ensures r.0.ctrl.jump == Jump.Step(w.ctrl.jump, r.0.input.jumpKeyDown, deltaTime)
    ensures r.1.move.forward != 0.0 <==> IsMoving(r.0.input)
    ensures IsMoving(r.0.input) ==> r.1.move.forward == PlayerSpeed(IsRunning(r.0.input))
    ensures sticks.left.Some? && sticks.right.Some? && sticks.right.value.pressed ==>
      r.0.cam == CameraOffsets(w.cam.alphaOffset - sticks.right.value.dx / CameraDamping,
                               w.cam.betaOffset + sticks.right.value.dy / CameraDamping)
    ensures !(sticks.left.Some? && sticks.right.Some? && sticks.right.value.pressed) ==> r.0.cam == w.cam
    ensures r.1.move.up == r.0.ctrl.jump.velocity
    ensures r.1.target == TargetYaw(r.0.input.horizontalAxis, r.0.input.verticalAxis)
    ensures r.0.ctrl.anim == UpdateAnimation(slots, w.ctrl.anim, IsRunning(r.0.input), IsMoving(r.0.input)).state
    ensures Playing(RefIds(w.ctrl.anim.prevGroup), r.1.calls) == RefIds(r.0.ctrl.anim.prevGroup)
  {
    var (input, cam) := Refresh(w.input.(keys := ApplyEvents(w.input.keys, events)), sticks, w.cam);
    var (ctrl, out) := Update(w.ctrl, slots, View(input), deltaTime);
    (World(input, cam, ctrl), out)
  }

  /** The invariant of every world reachable from the start. */
  ghost predicate Reachable(w: World, slots: Slots) {
    Coherent(w.input) && Jump.Valid(w.ctrl.jump) && Consistent(slots, w.ctrl.anim)
  }

  const InitialWorld: World := World(PlayerInput.Initial, CameraOffsets(0.0, 0.0), InitialController)

  lemma InitialIsReachable(slots: Slots)
    ensures Reachable(InitialWorld, slots)
  {
  }

  /** Every frame keeps the invariant, and in every frame the avatar translates exactly
      when it has a heading to turn to: the discrete axes that steer the rotation and the
      smoothed axes that gate the translation never disagree. */
  lemma TickKeepsReachable(w: World, events: seq<KeyEvent>, sticks: Sticks, slots: Slots, deltaTime: real)
    requires deltaTime >= 0.0 && Reachable(w, slots)
    ensures Reachable(Tick(w, events, sticks, slots, deltaTime).0, slots)
    ensures Tick(w, events, sticks, slots, deltaTime).1.move.forward != 0.0 <==>
      Tick(w, events, sticks, slots, deltaTime).1.target.Toward?
  {
    var pressed := w.input.(keys := ApplyEvents(w.input.keys, events));
    KeyEventsKeepCoherent(w.input, events);
    RefreshKeepsCoherent(pressed, sticks, w.cam);
    MovingIffAxisSet(Refresh(pressed, sticks, w.cam).0);
  }

  /** `n` frames without key events. */
  function TickN(w: World, sticks: Sticks, slots: Slots, deltaTime: real, n: nat): World
    requires deltaTime >= 0.0
  {
    if n == 0 then w else Tick(TickN(w, sticks, slots, deltaTime, n - 1), [], sticks, slots, deltaTime).0
  }

  /** Holding forward and shift on a desktop: the state the frames keep. */
  ghost predicate RunningForward(w: World, slots: Slots) {
    UpHeld(w.input.keys) && IsRunning(w.input) && 0.0 <= w.input.vertical <= 1.0 &&
    w.ctrl.anim == AnimState(Some(Running), slots.run)
  }

  lemma {:induction false} HoldingForwardAndShift(w: World, slots: Slots, deltaTime: real, n: nat)
    requires deltaTime >= 0.0 && slots.run.Group?
    requires RunningForward(w, slots)
    ensures RunningForward(TickN(w, NoSticks, slots, deltaTime, n), slots)
    ensures Tick(TickN(w, NoSticks, slots, deltaTime, n), [], NoSticks, slots, deltaTime).1.move.forward == 2.0 * Speed
    ensures Tick(TickN(w, NoSticks, slots, deltaTime, n), [], NoSticks, slots, deltaTime).1.calls == []
  {
    if n > 0 {
      HoldingForwardAndShift(w, slots, deltaTime, n - 1);
    }
    var wn := TickN(w, NoSticks, slots, deltaTime, n);
    var s := Refresh(wn.input.(keys := ApplyEvents(wn.input.keys, [])), NoSticks, wn.cam).0;
    assert s.vertical > 0.0;
  }

  /** From the start, pressing forward and shift before the first frame and holding them:
      the first frame already selects the running clip, and every frame moves the avatar
      forward at twice the base speed. */
  lemma ForwardShiftFromStart(slots: Slots, deltaTime: real, n: nat)
    requires deltaTime >= 0.0 && WellFormed(slots) && slots.run.Group?
    ensures RunningForward(Tick(InitialWorld, [KeyDown("w"), KeyDown("Shift")], NoSticks, slots, deltaTime).0, slots)
    ensures Tick(InitialWorld, [KeyDown("w"), KeyDown("Shift")], NoSticks, slots, deltaTime).1.move.forward == 2.0 * Speed
    ensures RunningForward(
      TickN(Tick(InitialWorld, [KeyDown("w"), KeyDown("Shift")], NoSticks, slots, deltaTime).0,
             NoSticks, slots, deltaTime, n), slots)
  {
  }
}

=== FILE: Common.dfy ===
/** Small shared vocabulary: an optional value and a discrete axis value. */
module Common {

  /** An optional value, used for engine objects that may be absent. */
  datatype Option<+T> = None | Some(value: T)

  /** A discrete axis value; the input code only ever stores -1, 0 or 1 in its axis fields. */
  type Sign = x: int | -1 <= x <= 1
}

=== FILE: Device.dfy ===
/** The user-agent test behind `isMobile`. */
module Device {
  import opened Text

  /** `_isAndroid`: the lower-cased user agent contains "android". */
  predicate IsAndroid(userAgent: string)
    ensures IsAndroid(userAgent) <==> exists i :: IsAt(Lower(userAgent), "android", i)
  {
    Contains(Lower(userAgent), "android")
  }

  /** `_isIos`: one of the expressions /iPhone/i, /iPad/i, /iPod/i matches the user agent.
      A case-insensitive search for a plain word is a search for the lower-cased word in
      the lower-cased text. */
  predicate IsIos(userAgent: string)
    ensures IsIos(userAgent) <==>
      exists i :: MatchAtIgnoringCase(userAgent, "iPhone", i) ||
                  MatchAtIgnoringCase(userAgent, "iPad", i) ||
                  MatchAtIgnoringCase(userAgent, "iPod", i)
  {
    var ua := Lower(userAgent);
    IosWordsIgnoringCase(userAgent);
    Contains(ua, "iphone") || Contains(ua, "ipad") || Contains(ua, "ipod")
  }

  lemma IosWordsIgnoringCase(userAgent: string)
    ensures forall i :: MatchAtIgnoringCase(userAgent, "iPhone", i) <==> IsAt(Lower(userAgent), "iphone", i)
    ensures forall i :: MatchAtIgnoringCase(userAgent, "iPad", i) <==> IsAt(Lower(userAgent), "ipad", i)
    ensures forall i :: MatchAtIgnoringCase(userAgent, "iPod", i) <==> IsAt(Lower(userAgent), "ipod", i)
  {
    assert Lower("iPhone") == "iphone" && Lower("iPad") == "ipad" && Lower("iPod") == "ipod";
    forall i
      ensures MatchAtIgnoringCase(userAgent, "iPhone", i) <==> IsAt(Lower(userAgent), "iphone", i)
      ensures MatchAtIgnoringCase(userAgent, "iPad", i) <==> IsAt(Lower(userAgent), "ipad", i)
      ensures MatchAtIgnoringCase(userAgent, "iPod", i) <==> IsAt(Lower(userAgent), "ipod", i)
    {
      MatchIgnoringCaseIsLowerMatch(userAgent, "iPhone", i);
      MatchIgnoringCaseIsLowerMatch(userAgent, "iPad", i);
      MatchIgnoringCaseIsLowerMatch(userAgent, "iPod", i);
    }
  }

  /** `isMobile`: an Android or an iOS user agent. */
  predicate IsMobile(userAgent: string)
    ensures IsMobile(userAgent) <==>
      exists i :: IsAt(Lower(userAgent), "android", i) ||
                  MatchAtIgnoringCase(userAgent, "iPhone", i) ||
                  MatchAtIgnoringCase(userAgent, "iPad", i) ||
                  MatchAtIgnoringCase(userAgent, "iPod", i)
  {
    IsAndroid(userAgent) || IsIos(userAgent)
  }

  /** A typical iPhone user agent is classified as mobile. */
  lemma IphoneIsMobile()
    ensures IsMobile("Mozilla/5.0 (iPhone; CPU iPhone OS 17_0)")
  {
    var ua := "Mozilla/5.0 (iPhone; CPU iPhone OS 17_0)";
    assert MatchAtIgnoringCase(ua, "iPhone", 13);
  }

  /** Case does not matter for Android either. */
  lemma UpperCaseAndroidIsMobile()
    ensures IsMobile("ANDROID")
  {
    assert IsAt(Lower("ANDROID"), "android", 0);
  }

  /** A user agent too short to hold any of the words is not mobile. */
  lemma ShortAgentIsDesktop(userAgent: string)
    requires |userAgent| < 4
    ensures !IsMobile(userAgent)
  {
  }
}

=== FILE: Heading.dfy ===
/** The controller's target yaw: camera orbit angle plus an 8-way choice from the two
    discrete axes. Every direction is -alpha + k*pi/4 for an integer k, so the choice is
    represented by k, and angles are compared modulo 2*pi, i.e. k modulo 8. */
module Heading {
  import opened Common

  /** A target: the eighth-turn index `k` relative to -alpha, or the current yaw. */
  datatype Target = Toward(k: int) | KeepCurrent

  /** `targetPlayerRotation`, in the order of its tests. The forward direction is k = -2,
      left k = 0, right k = -4, backward k = 2; diagonals sit an eighth-turn off. */
  function TargetYaw(h: Sign, v: Sign): (r: Target)
    ensures r.KeepCurrent? <==> h == 0 && v == 0
    ensures r.Toward? ==> -4 <= r.k <= 3
  {
    if h == 1 && v == 1 then Toward(-2 - 1)
    else if h == -1 && v == 1 then Toward(-2 + 1)
    else if h == -1 && v == -1 then Toward(2 - 1)
    else if h == 1 && v == -1 then Toward(2 + 1)
    else if h == 1 then Toward(-4)
    else if h == -1 then Toward(0)
    else if v == 1 then Toward(-2)
    else if v == -1 then Toward(2)
    else KeepCurrent
  }

  /** The angle a target stands for, given the camera angle, the value of pi and the
      avatar's current yaw. */
  function AngleOf(alpha: real, pi: real, currentYaw: real, t: Target): real {
    match t
    case Toward(k) => -alpha + k as real * (pi / 4.0)
    case KeepCurrent => currentYaw
  }

  /** The arithmetic of the `targetPlayerRotation` getter, written out with `pi` as a parameter. */
  function TargetAngle(alpha: real, pi: real, currentYaw: real, h: Sign, v: Sign): (r: real)
    ensures h == 0 && v == 0 ==> r == currentYaw
  {
    var forwardAlpha := -alpha - pi / 2.0;
    var leftAlpha := forwardAlpha + pi / 2.0;
    var rightAlpha := forwardAlpha - pi / 2.0;
    var backwardAlpha := forwardAlpha + pi;
    if h == 1 && v == 1 then forwardAlpha - pi / 4.0
    else if h == -1 && v == 1 then forwardAlpha + pi / 4.0
    else if h == -1 && v == -1 then backwardAlpha - pi / 4.0
    else if h == 1 && v == -1 then backwardAlpha + pi / 4.0
    else if h == 1 then rightAlpha
    else if h == -1 then leftAlpha
    else if v == 1 then forwardAlpha
    else if v == -1 then backwardAlpha
    else currentYaw
  }

  /** The angle the `targetPlayerRotation` getter computes is exactly the angle of the eighth-turn index. */
  lemma TargetAngleIsEighths(alpha: real, pi: real, currentYaw: real, h: Sign, v: Sign)
    ensures TargetAngle(alpha, pi, currentYaw, h, v) == AngleOf(alpha, pi, currentYaw, TargetYaw(h, v))
  {
  }

  /** The eight non-zero axis pairs give eight different directions modulo a full turn. */
  lemma DirectionsDistinct(h1: Sign, v1: Sign, h2: Sign, v2: Sign)
    requires (h1, v1) != (0, 0) && (h2, v2) != (0, 0) && (h1, v1) != (h2, v2)
    ensures TargetYaw(h1, v1).k % 8 != TargetYaw(h2, v2).k % 8
  {
  }

  /** Reversing both axes turns the target half a turn. */
  lemma OppositeIsHalfTurn(h: Sign, v: Sign)
    requires (h, v) != (0, 0)
    ensures (TargetYaw(-h, -v).k - TargetYaw(h, v).k) % 8 == 4
  {
  }

  /** `d` lies an eighth-turn past `a` and `b` an eighth-turn past `d`, in one rotational
      sense or the other: `d` bisects the quarter-turn from `a` to `b`. */
  predicate Bisects(d: int, a: int, b: int) {
    ((d - a) % 8 == 1 && (b - d) % 8 == 1) || ((d - a) % 8 == 7 && (b - d) % 8 == 7)
  }

  /** Each diagonal bisects its horizontal and its vertical neighbour. */
  lemma DiagonalBisects(h: Sign, v: Sign)
    requires h != 0 && v != 0
    ensures Bisects(TargetYaw(h, v).k, TargetYaw(h, 0).k, TargetYaw(0, v).k)
  {
  }

  /** Neighbouring cardinal directions are a quarter-turn apart. */
  lemma CardinalsQuarterTurnApart(h: Sign, v: Sign)
    requires h != 0 && v != 0
    ensures (TargetYaw(0, v).k - TargetYaw(h, 0).k) % 8 == 2 ||
            (TargetYaw(0, v).k - TargetYaw(h, 0).k) % 8 == 6
  {
  }
}

=== FILE: InputCoherence.dfy ===
/** Under exact arithmetic a smoothed axis value is zero exactly when its discrete axis is
    zero, so `isMoving` agrees with the discrete axes in every reachable input state.
    Every value a smoothed axis can take is 0 or m/5^n with 5 not dividing m. */
module InputCoherence {
  import opened Common
  import opened Keys
  import opened Smoothing
  import opened PlayerInput

  function Pow5(n: nat): (r: nat)
    ensures r >= 1
  {
    if n == 0 then 1 else 5 * Pow5(n - 1)
  }

  /** `x` is m/5^n with n >= 1 and 5 not dividing m. */
  ghost predicate ScaledBy(x: real, m: int, n: nat) {
    n >= 1 && m % 5 != 0 && x * (Pow5(n) as real) == m as real
  }

  ghost predicate FiveAdic(x: real) {
    exists m: int, n: nat :: ScaledBy(x, m, n)
  }

  /** The discrete axis and its smoothed value agree on being zero. */
  ghost predicate AxisAgrees(x: real, axis: Sign) {
    if axis == 0 then x == 0.0 else FiveAdic(x)
  }

  /** The invariant of every reachable input state. */
  ghost predicate Coherent(s: InputState) {
    Bounded(s) && AxisAgrees(s.horizontal, s.horizontalAxis) && AxisAgrees(s.vertical, s.verticalAxis)
  }

  lemma NotMultipleOfFive(m: int, k: int)
    requires m % 5 != 0
    ensures (4 * m + 5 * k) % 5 != 0
  {
  }

  lemma ScaleStep(x: real, t: real, p: real)
    ensures Smooth(x, t) * (5.0 * p) == 4.0 * (x * p) + t * p
  {
  }

  /** A smoothing step towards a unit target from 0 or from a five-adic value lands on a
      five-adic value, which is never zero. */
  lemma SmoothIsFiveAdic(x: real, t: real)
    requires t == 1.0 || t == -1.0
    requires x == 0.0 || FiveAdic(x)
    ensures FiveAdic(Smooth(x, t))
  {
    var ti: int := if t == 1.0 then 1 else -1;
    if x == 0.0 {
      assert ScaledBy(Smooth(x, t), ti, 1);
    } else {
      var m: int, n: nat :| ScaledBy(x, m, n);
      var p := Pow5(n);
      var k := ti * Pow5(n - 1);
      assert p == 5 * Pow5(n - 1);
      NotMultipleOfFive(m, k);
      ScaleStep(x, t, p as real);
      assert (Pow5(n + 1) as real) == 5.0 * (p as real);
      assert t * (p as real) == (ti * p) as real;
      assert ScaledBy(Smooth(x, t), 4 * m + 5 * k, n + 1);
    }
  }

  lemma InitialIsCoherent()
    ensures Coherent(Initial)
  {
  }

  /** Key events touch only the key table, so they keep the invariant. */
  lemma KeyEventsKeepCoherent(s: InputState, events: seq<KeyEvent>)
    requires Coherent(s)
    ensures Coherent(s.(keys := ApplyEvents(s.keys, events)))
  {
  }

  lemma KeyboardKeepsCoherent(s: InputState)
    requires Coherent(s)
    ensures Coherent(UpdateFromKeyboard(s))
  {
    var r := UpdateFromKeyboard(s);
    if r.verticalAxis != 0 {
      SmoothIsFiveAdic(s.vertical, r.verticalAxis as real);
    }
    if r.horizontalAxis != 0 {
      SmoothIsFiveAdic(s.horizontal, -(r.horizontalAxis as real));
    }
  }

  lemma StickAxisAgrees(value: real, axis: Sign, delta: real)
    requires AxisAgrees(value, axis)
    ensures AxisAgrees(StickAxis(value, delta).0, StickAxis(value, delta).1)
  {
    var r := StickAxis(value, delta);
    if r.1 != 0 {
      SmoothIsFiveAdic(value, r.1 as real);
    }
  }

  lemma JoystickKeepsCoherent(s: InputState, sticks: Sticks, cam: CameraOffsets)
    requires Coherent(s)
    ensures Coherent(UpdateFromJoystick(s, sticks, cam).0)
  {
    if sticks.left.Some? && sticks.right.Some? && sticks.left.value.pressed {
      StickAxisAgrees(s.horizontal, s.horizontalAxis, sticks.left.value.dx);
      StickAxisAgrees(s.vertical, s.verticalAxis, sticks.left.value.dy);
    }
  }

  /** The per-frame refresh keeps the invariant. */
  lemma RefreshKeepsCoherent(s: InputState, sticks: Sticks, cam: CameraOffsets)
    requires Coherent(s)
    ensures Coherent(Refresh(s, sticks, cam).0)
  {
    KeyboardKeepsCoherent(s);
    JoystickKeepsCoherent(UpdateFromKeyboard(s), sticks, cam);
  }

  /** In a coherent state `isMoving` holds exactly when a discrete axis is non-zero: there
      is no frame in which an axis is set while the smoothed value is still zero. */
  lemma MovingIffAxisSet(s: InputState)
    requires Coherent(s)
    ensures IsMoving(s) <==> s.horizontalAxis != 0 || s.verticalAxis != 0
  {
  }
}

=== FILE: Jump.dfy ===
/** The controller's per-frame jump and vertical-velocity state machine. Frame time is in
    milliseconds; the jump timer counts seconds. */
module Jump {
  import opened RealArith

  const InitialVelocity: real := 0.2
  const Gravity: real := 0.003
  const JumpHeight: real := 0.5
  const JumpingMaxTime: real := 0.9

  datatype JumpState = JumpState(jumping: bool, jumpingTime: real, velocity: real)

  /** The controller's fields right after construction. */
  const Initial: JumpState := JumpState(false, 0.0, InitialVelocity)

  /** The timer stays in [0, max) and is 0 while on the ground. */
  predicate Valid(s: JumpState) {
    0.0 <= s.jumpingTime < JumpingMaxTime && (!s.jumping ==> s.jumpingTime == 0.0)
  }

  /** `_checkJumpAndUpdateVelocity`: start a jump if the key is down and none is under way;
      advance the timer while jumping and land once it reaches the maximum air time; then
      apply gravity to a jump in progress, or pin the velocity to one frame of gravity. */
  function Step(s: JumpState, jumpKeyDown: bool, deltaTime: real): (r: JumpState)
    requires deltaTime >= 0.0
    ensures Valid(s) ==> Valid(r)
    ensures !r.jumping ==> r.velocity == -Gravity * deltaTime
    ensures r.jumping ==> s.jumping || jumpKeyDown
  {
    var started :=
      if jumpKeyDown && !s.jumping then JumpState(true, 0.0, JumpHeight) else s;
    var timed :=
      if started.jumping then
        var t := started.jumpingTime + deltaTime / 1000.0;
        if t >= JumpingMaxTime then started.(jumpingTime := 0.0, jumping := false)
        else started.(jumpingTime := t)
      else started;
    if timed.jumping then timed.(velocity := timed.velocity - Gravity * deltaTime)
    else timed.(velocity := -Gravity * deltaTime)
  }

  lemma InitialIsValid()
    ensures Valid(Initial)
  {
  }

  /** A jump starts only from the ground with the key down. In that frame the velocity is
      the jump impulse less one frame of gravity, unless the frame alone already exceeds
      the maximum air time. */
  lemma JumpStart(s: JumpState, deltaTime: real)
    requires deltaTime >= 0.0 && !s.jumping
    ensures deltaTime / 1000.0 < JumpingMaxTime ==>
      Step(s, true, deltaTime) == JumpState(true, deltaTime / 1000.0, JumpHeight - Gravity * deltaTime)
    ensures deltaTime / 1000.0 >= JumpingMaxTime ==>
      Step(s, true, deltaTime) == JumpState(false, 0.0, -Gravity * deltaTime)
    ensures Step(s, false, deltaTime) == JumpState(false, s.jumpingTime, -Gravity * deltaTime)
  {
  }

  /** Holding the key during a jump changes nothing: no restart, no timer reset. */
  lemma KeyIgnoredMidJump(s: JumpState, deltaTime: real)
    requires deltaTime >= 0.0 && s.jumping
    ensures Step(s, true, deltaTime) == Step(s, false, deltaTime)
  {
  }

  /** While airborne the timer advances by the frame time and the velocity drops by exactly
      one frame of gravity; the jump ends exactly when the timer reaches the maximum,
      whatever the sign of the velocity. */
  lemma AirborneFrame(s: JumpState, jumpKeyDown: bool, deltaTime: real)
    requires deltaTime >= 0.0 && s.jumping
    ensures Step(s, jumpKeyDown, deltaTime).jumping <==>
      s.jumpingTime + deltaTime / 1000.0 < JumpingMaxTime
    ensures Step(s, jumpKeyDown, deltaTime).jumping ==>
      Step(s, jumpKeyDown, deltaTime) ==
        JumpState(true, s.jumpingTime + deltaTime / 1000.0, s.velocity - Gravity * deltaTime)
    ensures !Step(s, jumpKeyDown, deltaTime).jumping ==>
      Step(s, jumpKeyDown, deltaTime) == JumpState(false, 0.0, -Gravity * deltaTime)
  {
  }

  /** There is no edge detection on the key: holding it through a landing starts the next
      jump on the very next frame. */
  lemma HeldKeyJumpsAgain(s: JumpState, deltaTime: real)
    requires deltaTime >= 0.0 && deltaTime / 1000.0 < JumpingMaxTime
    requires s.jumping && s.jumpingTime + deltaTime / 1000.0 >= JumpingMaxTime
    ensures !Step(s, true, deltaTime).jumping
    ensures Step(Step(s, true, deltaTime), true, deltaTime).jumping
  {
  }

  /** Frames at a constant frame time, one key reading per frame. */
  function Run(s: JumpState, keys: seq<bool>, deltaTime: real): JumpState
    requires deltaTime >= 0.0
    decreases |keys|
  {
    if |keys| == 0 then s else Run(Step(s, keys[0], deltaTime), keys[1..], deltaTime)
  }

  /** Every frame sequence from a valid state ends in a valid state. */
  lemma {:induction false} RunKeepsValid(s: JumpState, keys: seq<bool>, deltaTime: real)
    requires deltaTime >= 0.0 && Valid(s)
    ensures Valid(Run(s, keys, deltaTime))
    decreases |keys|
  {
    if |keys| > 0 {
      RunKeepsValid(Step(s, keys[0], deltaTime), keys[1..], deltaTime);
    }
  }

  /** `n` copies of `x` added up. */
  function Times(n: nat, x: real): real {
    if n == 0 then 0.0 else x + Times(n - 1, x)
  }

  lemma {:induction false} TimesIsProduct(n: nat, x: real)
    ensures Times(n, x) == n as real * x
  {
    if n > 0 {
      TimesIsProduct(n - 1, x);
      assert n as real * x == x + (n - 1) as real * x;
    }
  }

  lemma {:induction false} TimesNonneg(n: nat, x: real)
    requires x >= 0.0
    ensures Times(n, x) >= 0.0
  {
    if n > 0 {
      TimesNonneg(n - 1, x);
    }
  }

  /** While the air time is not used up, `n` airborne frames advance the timer by `n` frame
      times and take `n` frames of gravity off the velocity, whatever the key does. */
  lemma {:induction false} AirborneRun(s: JumpState, keys: seq<bool>, deltaTime: real)
    requires deltaTime >= 0.0 && s.jumping
    requires s.jumpingTime + Times(|keys|, deltaTime / 1000.0) < JumpingMaxTime
    ensures Run(s, keys, deltaTime) ==
      JumpState(true, s.jumpingTime + Times(|keys|, deltaTime / 1000.0),
                s.velocity - Times(|keys|, Gravity * deltaTime))
    decreases |keys|
  {
    if |keys| > 0 {
      var f := deltaTime / 1000.0;
      TimesNonneg(|keys| - 1, f);
      var s' := Step(s, keys[0], deltaTime);
      AirborneFrame(s, keys[0], deltaTime);
      AirborneRun(s', keys[1..], deltaTime);
    }
  }

  /** `AirborneRun` with the sums written as products: after `n` frames the timer has
      advanced by `n * deltaTime / 1000` and the velocity has lost `n * gravity * deltaTime`. */
  lemma AirborneRunProduct(s: JumpState, keys: seq<bool>, deltaTime: real)
    requires deltaTime >= 0.0 && s.jumping
    requires s.jumpingTime + |keys| as real * (deltaTime / 1000.0) < JumpingMaxTime
    ensures Run(s, keys, deltaTime) ==
      JumpState(true, s.jumpingTime + |keys| as real * (deltaTime / 1000.0),
                s.velocity - |keys| as real * (Gravity * deltaTime))
  {
    var n, f, g := |keys|, deltaTime / 1000.0, Gravity * deltaTime;
    TimesIsProduct(n, f);
    TimesIsProduct(n, g);
    AirborneRun(s, keys, deltaTime);
    assert Run(s, keys, deltaTime) == JumpState(true, s.jumpingTime + Times(n, f), s.velocity - Times(n, g));
  }

  /** The whole jump at a constant frame time: pressing the key on the ground and then
      anything for `n` more frames, still inside the air time, leaves the controller
      airborne `n + 1` frames with the velocity at the impulse minus `n + 1` frames of
      gravity. */
  lemma JumpTrajectory(s: JumpState, keys: seq<bool>, deltaTime: real)
    requires deltaTime >= 0.0 && !s.jumping
    requires Times(|keys| + 1, deltaTime / 1000.0) < JumpingMaxTime
    ensures Run(s, [true] + keys, deltaTime) ==
      JumpState(true, Times(|keys| + 1, deltaTime / 1000.0),
                JumpHeight - Times(|keys| + 1, Gravity * deltaTime))
  {
    TimesNonneg(|keys|, deltaTime / 1000.0);
    JumpStart(s, deltaTime);
    assert ([true] + keys)[1..] == keys;
    AirborneRun(Step(s, true, deltaTime), keys, deltaTime);
  }
}

=== FILE: Keys.dfy ===
/** The pressed-key table of the input component: key events record the lower-cased key
    name, and lookups lower-case their argument, so the table is case-insensitive. */
module Keys {
  import opened Common
  import opened Text

  /** Key name (lower-cased) to "currently pressed". A key never seen is absent. */
  type KeyMap = map<string, bool>

  /** A keyboard event as the scene's action manager delivers it. */
  datatype KeyEvent = KeyDown(key: string) | KeyUp(key: string)

  /** `isKeyPressed`: an absent entry reads as not pressed. */
  predicate IsKeyPressed(keys: KeyMap, key: string) {
    Lower(key) in keys && keys[Lower(key)]
  }

  /** The keydown handler. Afterwards exactly the keys equal to `key` up to case are
      pressed in addition to those pressed before. */
  function PressKey(keys: KeyMap, key: string): (r: KeyMap)
    ensures forall probe :: IsKeyPressed(r, probe) <==>
      (Lower(probe) == Lower(key) || IsKeyPressed(keys, probe))
  {
    keys[Lower(key) := true]
  }

  /** The keyup handler. Afterwards the keys equal to `key` up to case are released and
      every other key reads as before. */
  function ReleaseKey(keys: KeyMap, key: string): (r: KeyMap)
    ensures forall probe :: IsKeyPressed(r, probe) <==>
      (Lower(probe) != Lower(key) && IsKeyPressed(keys, probe))
  {
    keys[Lower(key) := false]
  }

  function ApplyEvent(keys: KeyMap, e: KeyEvent): KeyMap {
    match e
    case KeyDown(k) => PressKey(keys, k)
    case KeyUp(k) => ReleaseKey(keys, k)
  }

  /** The events delivered between two frames, in order. */
  function ApplyEvents(keys: KeyMap, events: seq<KeyEvent>): KeyMap
    decreases |events|
  {
    if |events| == 0 then keys
    else ApplyEvent(ApplyEvents(keys, events[..|events| - 1]), events[|events| - 1])
  }

  /** Reference reading of the event log: the kind of the last event whose key equals
      `key` up to case, if there is one. */
  function LastEventFor(events: seq<KeyEvent>, key: string): Option<bool>
    decreases |events|
  {
    if |events| == 0 then None
    else if Lower(events[|events| - 1].key) == Lower(key) then Some(events[|events| - 1].KeyDown?)
    else LastEventFor(events[..|events| - 1], key)
  }

  /** A key reads as pressed exactly when the last event for it, ignoring case, was a
      keydown; a key with no event reads as it did before the events. */
  lemma {:induction false} PressedIffLastEventDown(keys: KeyMap, events: seq<KeyEvent>, key: string)
    ensures IsKeyPressed(ApplyEvents(keys, events), key) <==>
      match LastEventFor(events, key)
      case Some(down) => down
      case None => IsKeyPressed(keys, key)
    decreases |events|
  {
    if |events| > 0 {
      PressedIffLastEventDown(keys, events[..|events| - 1], key);
    }
  }

  /** Looking a key up ignores its case. */
  lemma LookupIgnoresCase(keys: KeyMap, key: string)
    ensures IsKeyPressed(keys, key) <==> IsKeyPressed(keys, Lower(key))
  {
    LowerIdempotent(key);
  }

  /** In a table that has seen no event, no key is pressed. */
  lemma NeverSeenIsReleased(key: string)
    ensures !IsKeyPressed(map[], key)
  {
  }
}

=== FILE: PlayerInput.dfy ===
/** The input component: keyboard and virtual-joystick signals folded, once per frame,
    into smoothed axes, discrete axis signs, a jump flag and camera-orbit offsets. */
module PlayerInput {
  import opened Common
  import opened Keys
  import opened Smoothing

  /** The fields the input component keeps between frames. */
  datatype InputState = InputState(
    keys: KeyMap,
    horizontal: real,
    vertical: real,
    horizontalAxis: Sign,
    verticalAxis: Sign,
    jumpKeyDown: bool)

  /** The state right after construction: no key seen, every axis at rest. */
  const Initial: InputState := InputState(map[], 0.0, 0.0, 0, 0, false)

  /** One on-screen joystick as read during a frame: pressed flag and puck displacement. */
  datatype Joystick = Joystick(pressed: bool, dx: real, dy: real)

  /** The two joysticks, present only when they were created (on a mobile device). */
  datatype Sticks = Sticks(left: Option<Joystick>, right: Option<Joystick>)

  /** No joysticks: the desktop configuration. */
  const NoSticks: Sticks := Sticks(None, None)

  /** The camera's `inertialAlphaOffset` and `inertialBetaOffset`, the only camera fields
      input writes. The orbit angle `alpha` itself is read by the heading, where it is a
      parameter of `Heading.AngleOf`. */
  datatype CameraOffsets = CameraOffsets(alphaOffset: real, betaOffset: real)

  /** The joystick displacement at which movement starts is half of this. */
  const JoystickMaxDelta: real := 0.02

  /** Divisor applied to the right stick's displacement before it reaches the camera. */
  const CameraDamping: real := 5.0

  predicate UpHeld(keys: KeyMap) { IsKeyPressed(keys, "w") || IsKeyPressed(keys, "ArrowUp") }
  predicate DownHeld(keys: KeyMap) { IsKeyPressed(keys, "s") || IsKeyPressed(keys, "ArrowDown") }
  predicate LeftHeld(keys: KeyMap) { IsKeyPressed(keys, "a") || IsKeyPressed(keys, "ArrowLeft") }
  predicate RightHeld(keys: KeyMap) { IsKeyPressed(keys, "d") || IsKeyPressed(keys, "ArrowRight") }

  /** Both smoothed axes lie in [-1, 1]. */
  predicate Bounded(s: InputState) {
    -1.0 <= s.horizontal <= 1.0 && -1.0 <= s.vertical <= 1.0
  }

  /** The keyboard half of the per-frame refresh. Up beats down and left beats right; a
      held key moves the smoothed value a fifth of the way to its target, while releasing
      both keys of a pair resets it to 0 at once. The horizontal target is the opposite of
      the sign stored in `horizontalAxis`. */
  function UpdateFromKeyboard(s: InputState): (r: InputState)
    ensures r.keys == s.keys
    ensures r.jumpKeyDown <==> IsKeyPressed(s.keys, " ")
    ensures r.verticalAxis == 1 <==> UpHeld(s.keys)
    ensures r.verticalAxis == -1 <==> !UpHeld(s.keys) && DownHeld(s.keys)
    ensures r.verticalAxis != 0 ==>
      r.vertical - r.verticalAxis as real == 0.8 * (s.vertical - r.verticalAxis as real)
    ensures r.verticalAxis == 0 ==> r.vertical == 0.0
    ensures r.horizontalAxis == 1 <==> LeftHeld(s.keys)
    ensures r.horizontalAxis == -1 <==> !LeftHeld(s.keys) && RightHeld(s.keys)
    ensures r.horizontalAxis != 0 ==>
      r.horizontal + r.horizontalAxis as real == 0.8 * (s.horizontal + r.horizontalAxis as real)
    ensures r.horizontalAxis == 0 ==> r.horizontal == 0.0
    ensures Bounded(s) ==> Bounded(r)
  {
    var (vertical, verticalAxis) :=
      if UpHeld(s.keys) then (Smooth(s.vertical, 1.0), 1)
      else if DownHeld(s.keys) then (Smooth(s.vertical, -1.0), -1)
      else (0.0, 0);
    var (horizontal, horizontalAxis) :=
      if LeftHeld(s.keys) then (Smooth(s.horizontal, -1.0), 1)
      else if RightHeld(s.keys) then (Smooth(s.horizontal, 1.0), -1)
      else (0.0, 0);
    s.(vertical := vertical, verticalAxis := verticalAxis,
       horizontal := horizontal, horizontalAxis := horizontalAxis,
       jumpKeyDown := IsKeyPressed(s.keys, " "))
  }

  /** The left stick's rule for one axis: inside the dead zone the axis and its value are
      zeroed; outside it the axis takes the sign of the displacement and the value moves a
      fifth of the way towards it. */
  function StickAxis(value: real, delta: real): (r: (real, Sign))
    ensures -JoystickMaxDelta / 2.0 <= delta <= JoystickMaxDelta / 2.0 ==> r == (0.0, 0)
    ensures delta > JoystickMaxDelta / 2.0 ==> r.1 == 1 && r.0 - 1.0 == 0.8 * (value - 1.0)
    ensures delta < -JoystickMaxDelta / 2.0 ==> r.1 == -1 && r.0 + 1.0 == 0.8 * (value + 1.0)
  {
    if delta > JoystickMaxDelta / 2.0 || delta < -JoystickMaxDelta / 2.0 then
      var axis: Sign := if delta > 0.0 then 1 else -1;
      (Smooth(value, axis as real), axis)
    else (0.0, 0)
  }

  /** The joystick half of the per-frame refresh. Nothing happens unless both sticks
      exist. The left stick rewrites the four axis fields (all zero while released); the
      right stick, while pressed, turns the camera by a fifth of its displacement, and
      changes nothing else. */
  function UpdateFromJoystick(s: InputState, sticks: Sticks, cam: CameraOffsets)
    : (r: (InputState, CameraOffsets))
    ensures sticks.left.None? || sticks.right.None? ==> r == (s, cam)
    ensures r.0.keys == s.keys && r.0.jumpKeyDown == s.jumpKeyDown
    ensures sticks.left.Some? && sticks.right.Some? && !sticks.left.value.pressed ==>
      r.0.horizontal == 0.0 && r.0.vertical == 0.0 &&
      r.0.horizontalAxis == 0 && r.0.verticalAxis == 0
    ensures sticks.left.Some? && sticks.right.Some? && sticks.left.value.pressed ==>
      (r.0.horizontal, r.0.horizontalAxis) == StickAxis(s.horizontal, sticks.left.value.dx) &&
      (r.0.vertical, r.0.verticalAxis) == StickAxis(s.vertical, sticks.left.value.dy)
    ensures sticks.left.Some? && sticks.right.Some? && sticks.right.value.pressed ==>
      r.1 == CameraOffsets(cam.alphaOffset - sticks.right.value.dx / CameraDamping,
                           cam.betaOffset + sticks.right.value.dy / CameraDamping)
    ensures sticks.right.Some? && !sticks.right.value.pressed ==> r.1 == cam
    ensures Bounded(s) ==> Bounded(r.0)
  {
    if sticks.left.None? || sticks.right.None? then (s, cam)
    else
      var left, right := sticks.left.value, sticks.right.value;
      var s' :=
        if left.pressed then
          var (h, ha) := StickAxis(s.horizontal, left.dx);
          var (v, va) := StickAxis(s.vertical, left.dy);
          s.(horizontal := h, horizontalAxis := ha, vertical := v, verticalAxis := va)
        else
          s.(horizontal := 0.0, horizontalAxis := 0, vertical := 0.0, verticalAxis := 0);
      var cam' :=
        if right.pressed then
          cam.(alphaOffset := cam.alphaOffset - right.dx / CameraDamping,
               betaOffset := cam.betaOffset + right.dy / CameraDamping)
        else cam;
      (s', cam')
  }

  /** The before-render callback: the keyboard update, then the joystick update. */
  function Refresh(s: InputState, sticks: Sticks, cam: CameraOffsets): (r: (InputState, CameraOffsets))
    ensures r.0.keys == s.keys
    ensures r.0.jumpKeyDown <==> IsKeyPressed(s.keys, " ")
    ensures sticks.left.None? || sticks.right.None? ==> r == (UpdateFromKeyboard(s), cam)
    ensures sticks.left.Some? && sticks.right.Some? && sticks.right.value.pressed ==>
      r.1 == CameraOffsets(cam.alphaOffset - sticks.right.value.dx / CameraDamping,
                           cam.betaOffset + sticks.right.value.dy / CameraDamping)
    ensures sticks.left.Some? && sticks.right.Some? && !sticks.right.value.pressed ==> r.1 == cam
    ensures sticks.left.Some? && sticks.right.Some? && sticks.left.value.pressed ==>
      (r.0.horizontal, r.0.horizontalAxis) ==
        StickAxis(UpdateFromKeyboard(s).horizontal, sticks.left.value.dx) &&
      (r.0.vertical, r.0.verticalAxis) ==
        StickAxis(UpdateFromKeyboard(s).vertical, sticks.left.value.dy)
    ensures sticks.left.Some? && sticks.right.Some? && !sticks.left.value.pressed ==>
      r.0.horizontal == 0.0 && r.0.vertical == 0.0 &&
      r.0.horizontalAxis == 0 && r.0.verticalAxis == 0
    ensures Bounded(s) ==> Bounded(r.0)
  {
    UpdateFromJoystick(UpdateFromKeyboard(s), sticks, cam)
  }

  /** `isMoving`: either smoothed axis is non-zero. */
  predicate IsMoving(s: InputState) {
    s.horizontal != 0.0 || s.vertical != 0.0
  }

  /** `isRunning`: the shift key is held (it is recorded under its lower-cased name). */
  predicate IsRunning(s: InputState) {
    IsKeyPressed(s.keys, "Shift")
  }

  /** When both joysticks exist the discrete axes after a refresh depend only on the left
      stick, never on the keys: the joystick update overwrites what the keyboard wrote. */
  lemma JoystickOverridesKeyboard(a: InputState, b: InputState, sticks: Sticks, cam: CameraOffsets)
    requires sticks.left.Some? && sticks.right.Some?
    ensures Refresh(a, sticks, cam).0.horizontalAxis == Refresh(b, sticks, cam).0.horizontalAxis
    ensures Refresh(a, sticks, cam).0.verticalAxis == Refresh(b, sticks, cam).0.verticalAxis
    ensures Refresh(a, sticks, cam).1 == Refresh(b, sticks, cam).1
  {
  }

  /** The joystick update smooths from the value the keyboard update just wrote, and with
      no direction key held that value is 0. So on a device with both sticks and no
      keyboard input the smoothed values are always 0 or exactly a fifth of their axis
      sign: they never build up towards 1 from frame to frame. */
  lemma TouchAxesStayAtOneFifth(s: InputState, sticks: Sticks, cam: CameraOffsets)
    requires sticks.left.Some? && sticks.right.Some?
    requires !UpHeld(s.keys) && !DownHeld(s.keys) && !LeftHeld(s.keys) && !RightHeld(s.keys)
    ensures Refresh(s, sticks, cam).0.horizontal == 0.2 * Refresh(s, sticks, cam).0.horizontalAxis as real
    ensures Refresh(s, sticks, cam).0.vertical == 0.2 * Refresh(s, sticks, cam).0.verticalAxis as real
  {
  }

  /** With no joysticks, holding up for `n` frames leaves the vertical value exactly `n`
      smoothing steps closer to 1. */
  lemma {:induction false} HoldingUpSmoothsVertical(s: InputState, cam: CameraOffsets, n: nat)
    requires UpHeld(s.keys)
    ensures RefreshN(s, cam, n).vertical == SmoothN(s.vertical, 1.0, n)
    ensures RefreshN(s, cam, n).keys == s.keys
  {
    if n > 0 {
      HoldingUpSmoothsVertical(s, cam, n - 1);
    }
  }

  /** `n` desktop frames without key events. */
  function RefreshN(s: InputState, cam: CameraOffsets, n: nat): InputState {
    if n == 0 then s else Refresh(RefreshN(s, cam, n - 1), NoSticks, cam).0
  }
}

=== FILE: RealArith.dfy ===
/** Facts about products of reals that the solver does not find on its own. */
module RealArith {

  lemma MulNonneg(a: real, b: real)
    requires a >= 0.0 && b >= 0.0
    ensures a * b >= 0.0
  {
  }
}

=== FILE: SceneSetup.dfy ===
/** The scene bootstrap's collider classification of the environment meshes by name. */
module SceneSetup {
  import opened Text

  datatype Shape = Box | Mesh

  /** A physics aggregate as created for a mesh: its shape and mass. */
  datatype Aggregate = Aggregate(shape: Shape, mass: real)

  /** What the bootstrap does to one mesh. */
  datatype MeshSetup = MeshSetup(checkCollisions: bool, aggregates: seq<Aggregate>)

  /** Name fragments that earn an exact-mesh collider. */
  const CollisionMeshes: seq<string> := ["sofa", "chair"]

  /** Name fragments that earn a box collider. */
  const CollisionBoxes: seq<string> := ["ground", "box", "cube", "plane"]

  /** `patterns.some(p => name.toLowerCase().includes(p.toLocaleLowerCase()))`. */
  function AnyIncluded(name: string, patterns: seq<string>): (r: bool)
    ensures r <==> exists i :: 0 <= i < |patterns| && Contains(Lower(name), Lower(patterns[i]))
    decreases |patterns|
  {
    if |patterns| == 0 then false
    else Contains(Lower(name), Lower(patterns[0])) || AnyIncluded(name, patterns[1..])
  }

  /** The box rule: one of "ground", "box", "cube", "plane" occurs in the lower-cased name. */
  predicate BoxName(name: string) {
    var l := Lower(name);
    Contains(l, "ground") || Contains(l, "box") || Contains(l, "cube") || Contains(l, "plane")
  }

  /** The mesh rule: "sofa" or "chair" occurs in the lower-cased name. */
  predicate MeshName(name: string) {
    var l := Lower(name);
    Contains(l, "sofa") || Contains(l, "chair")
  }

  /** The `some` over the fixed lists is the rule spelled out. */
  lemma ListsAreRules(name: string)
    ensures AnyIncluded(name, CollisionBoxes) <==> BoxName(name)
    ensures AnyIncluded(name, CollisionMeshes) <==> MeshName(name)
  {
    var l := Lower(name);
    PatternsAreLowerCase();
    var b := CollisionBoxes;
    assert b[0] == "ground" && b[1] == "box" && b[2] == "cube" && b[3] == "plane";
    assert b[1..][1..][1..][1..] == [];
    var m := CollisionMeshes;
    assert m[0] == "sofa" && m[1] == "chair";
    assert m[1..][1..] == [];
  }

  /** The loop body for one mesh. Collision checks are always on; a box aggregate is made
      when a box fragment occurs in the lower-cased name and a mesh aggregate when a mesh
      fragment does, independently of each other, each static (mass 0) and each at most
      once. */
  function ClassifyMesh(name: string): (r: MeshSetup)
    ensures r.checkCollisions
    ensures Aggregate(Box, 0.0) in r.aggregates <==> BoxName(name)
    ensures Aggregate(Mesh, 0.0) in r.aggregates <==> MeshName(name)
    ensures forall a :: a in r.aggregates ==> a.mass == 0.0
    ensures forall i, j :: 0 <= i < j < |r.aggregates| ==> r.aggregates[i].shape != r.aggregates[j].shape
  {
    var box := AnyIncluded(name, CollisionBoxes);
    var mesh := AnyIncluded(name, CollisionMeshes);
    ListsAreRules(name);
    MeshSetup(true, Colliders(box, mesh))
  }

  /** The aggregates made for a mesh: a box one first if asked for, then a mesh one. */
  function Colliders(box: bool, mesh: bool): (r: seq<Aggregate>)
    ensures Aggregate(Box, 0.0) in r <==> box
    ensures Aggregate(Mesh, 0.0) in r <==> mesh
    ensures forall a :: a in r ==> a.mass == 0.0
    ensures forall i, j :: 0 <= i < j < |r| ==> r[i].shape != r[j].shape
  {
    (if box then [Aggregate(Box, 0.0)] else []) + (if mesh then [Aggregate(Mesh, 0.0)] else [])
  }

  /** The fragments are written in lower case, so lower-casing them changes nothing. */
  lemma PatternsAreLowerCase()
    ensures forall i :: 0 <= i < |CollisionBoxes| ==> Lower(CollisionBoxes[i]) == CollisionBoxes[i]
    ensures forall i :: 0 <= i < |CollisionMeshes| ==> Lower(CollisionMeshes[i]) == CollisionMeshes[i]
  {
  }

  /** A fragment holding a character the text lacks does not occur in it. */
  lemma MissingCharacter(s: string, sub: string, k: int)
    requires 0 <= k < |sub| && sub[k] !in s
    ensures !Contains(s, sub)
  {
  }

  /** The `forEach` over the environment's meshes: one setup per mesh, in order. */
  function ClassifyAll(names: seq<string>): (r: seq<MeshSetup>)
    ensures |r| == |names|
    ensures forall i :: 0 <= i < |names| ==> r[i] == ClassifyMesh(names[i])
  {
    seq(|names|, i requires 0 <= i < |names| => ClassifyMesh(names[i]))
  }

  /** A name matching both lists gets both colliders. */
  lemma BothLists()
    ensures ClassifyMesh("Chair_Box").aggregates == [Aggregate(Box, 0.0), Aggregate(Mesh, 0.0)]
  {
    var l := Lower("Chair_Box");
    assert l == "chair_box";
    assert IsAt(l, "box", 6);
    assert IsAt(l, "chair", 0);
    ListsAreRules("Chair_Box");
  }

  /** A name matching several box fragments still gets a single box collider. */
  lemma OneBoxForManyFragments()
    ensures ClassifyMesh("GroundPlane").aggregates == [Aggregate(Box, 0.0)]
  {
    var l := Lower("GroundPlane");
    assert l == "groundplane";
    assert IsAt(l, "ground", 0);
    MissingCharacter(l, "sofa", 0);
    MissingCharacter(l, "chair", 0);
    ListsAreRules("GroundPlane");
  }

  /** A name matching neither list gets no collider, but collision checks stay on. */
  lemma NeitherList()
    ensures ClassifyMesh("Wall").aggregates == [] && ClassifyMesh("Wall").checkCollisions
  {
    var l := Lower("Wall");
    assert l == "wall";
    MissingCharacter(l, "ground", 0);
    MissingCharacter(l, "box", 0);
    MissingCharacter(l, "cube", 0);
    MissingCharacter(l, "plane", 0);
    MissingCharacter(l, "sofa", 0);
    MissingCharacter(l, "chair", 0);
    ListsAreRules("Wall");
  }
}

=== FILE: Smoothing.dfy ===
/** The per-frame exponential smoothing of the movement axes: `Scalar.Lerp(x, t, 0.2)`. */
module Smoothing {
  import opened RealArith

  /** The smoothing rate applied once per frame. */
  const Rate: real := 0.2

  /** Linear interpolation from `a` towards `b` by the fraction `t`. */
  function Lerp(a: real, b: real, t: real): real {
    a + (b - a) * t
  }

  /** One smoothing step of `x` towards the target `t`. Each step removes exactly a fifth of
      the remaining distance, and it keeps a value within [-1, 1] when the target is a unit. */
  function Smooth(x: real, t: real): (r: real)
    ensures r - t == 0.8 * (x - t)
    ensures (t == 1.0 || t == -1.0) && -1.0 <= x <= 1.0 ==> -1.0 <= r <= 1.0
  {
    Lerp(x, t, Rate)
  }

  /** Strictly closer: a step never overshoots and always makes progress. */
  lemma SmoothApproaches(x: real, t: real)
    ensures x < t ==> x < Smooth(x, t) < t
    ensures x > t ==> t < Smooth(x, t) < x
    ensures x == t ==> Smooth(x, t) == t
  {
  }

  /** `n` consecutive smoothing steps towards the same target. */
  function SmoothN(x: real, t: real, n: nat): real {
    if n == 0 then x else Smooth(SmoothN(x, t, n - 1), t)
  }

  function Pow(b: real, n: nat): real {
    if n == 0 then 1.0 else b * Pow(b, n - 1)
  }

  /** After `n` steps the remaining distance is exactly 0.8^n of the initial one. */
  lemma {:induction false} SmoothNDistance(x: real, t: real, n: nat)
    ensures SmoothN(x, t, n) - t == Pow(0.8, n) * (x - t)
  {
    if n > 0 {
      SmoothNDistance(x, t, n - 1);
      calc {
        SmoothN(x, t, n) - t;
        0.8 * (SmoothN(x, t, n - 1) - t);
        0.8 * (Pow(0.8, n - 1) * (x - t));
        Pow(0.8, n) * (x - t);
      }
    }
  }

  lemma {:induction false} PowProduct(n: nat)
    ensures Pow(0.8, n) * Pow(1.25, n) == 1.0
    ensures Pow(0.8, n) > 0.0
  {
    if n > 0 {
      PowProduct(n - 1);
      calc {
        Pow(0.8, n) * Pow(1.25, n);
        (0.8 * Pow(0.8, n - 1)) * (1.25 * Pow(1.25, n - 1));
        (0.8 * 1.25) * (Pow(0.8, n - 1) * Pow(1.25, n - 1));
        1.0;
      }
    }
  }

  /** 0.8^n shrinks at least like 4/(4 + n). */
  lemma PowDecay(n: nat)
    ensures Pow(0.8, n) * (4.0 + n as real) <= 4.0
  {
  }

  /** |d| <= 2 and 0 <= c <= 4 bound the product by 8. */
  lemma ProductBound(d: real, c: real)
    requires -2.0 <= d <= 2.0 && 0.0 <= c <= 4.0
    ensures -8.0 <= d * c <= 8.0
  {
    MulNonneg(2.0 - d, c);
    MulNonneg(2.0 + d, c);
    MulNonneg(2.0 + d, 4.0 - c);
    MulNonneg(2.0 - d, 4.0 - c);
  }

  /** Holding a target brings the smoothed value arbitrarily close to it, starting from
      anywhere in [-1, 1]: after `m` steps the distance is at most 8/(4 + m). */
  lemma ConvergenceRate(x: real, t: real, m: nat)
    requires -1.0 <= x <= 1.0 && (t == 1.0 || t == -1.0)
    ensures -8.0 <= (SmoothN(x, t, m) - t) * (4.0 + m as real) <= 8.0
  {
    SmoothNDistance(x, t, m);
    PowDecay(m);
    PowProduct(m);
    var p, d, w := Pow(0.8, m), x - t, 4.0 + m as real;
    MulNonneg(p, w);
    ProductBound(d, p * w);
    assert (p * d) * w == d * (p * w);
  }
}

=== FILE: Text.dfy ===
/** Strings as the browser code uses them: ASCII lower-casing, `indexOf` and `includes`. */
module Text {

  /** Lower-cases one character; only the ASCII letters A-Z change. */
  function LowerChar(c: char): (r: char)
    ensures !('A' <= r <= 'Z')
    ensures 'a' <= c <= 'z' ==> r == c
  {
    if 'A' <= c <= 'Z' then (c as int + 32) as char else c
  }

  /** `toLowerCase`, restricted to the ASCII letters. */
  function Lower(s: string): (r: string)
    ensures |r| == |s|
    ensures forall i :: 0 <= i < |s| ==> r[i] == LowerChar(s[i])
  {
    seq(|s|, i requires 0 <= i < |s| => LowerChar(s[i]))
  }

  /** Lower-casing twice is lower-casing once. */
  lemma LowerIdempotent(s: string)
    ensures Lower(Lower(s)) == Lower(s)
  {
  }

  /** `sub` occurs in `s` starting at position `i`. */
  predicate IsAt(s: string, sub: string, i: int) {
    0 <= i && i + |sub| <= |s| && s[i..i + |sub|] == sub
  }

  /** `s.indexOf(sub, from)` for a start no later than the end of `s` (a start past the end,
      which the browser clamps to the end, is not needed here): the first position at or
      after `from` where `sub` occurs, or -1. */
  function IndexFrom(s: string, sub: string, from: nat): (r: int)
    requires from <= |s|
    decreases |s| - from
    ensures r == -1 || (from <= r && IsAt(s, sub, r))
    ensures r == -1 <==> forall j :: from <= j ==> !IsAt(s, sub, j)
    ensures r >= 0 ==> forall j :: from <= j < r ==> !IsAt(s, sub, j)
  {
    if from + |sub| > |s| then -1
    else if s[from..from + |sub|] == sub then from
    else IndexFrom(s, sub, from + 1)
  }

  /** `s.indexOf(sub)`. */
  function IndexOf(s: string, sub: string): (r: int)
    ensures r == -1 <==> forall j :: !IsAt(s, sub, j)
    ensures r >= 0 ==> IsAt(s, sub, r) && forall j :: 0 <= j < r ==> !IsAt(s, sub, j)
  {
    IndexFrom(s, sub, 0)
  }

  /** `s.includes(sub)`, which is `s.indexOf(sub) > -1`. */
  predicate Contains(s: string, sub: string)
    ensures Contains(s, sub) <==> exists i :: IsAt(s, sub, i)
  {
    IndexOf(s, sub) > -1
  }

  /** A case-insensitive literal match of `pat` at position `i` of `s`, as a regular
      expression `/pat/i` made of plain letters finds it. */
  ghost predicate MatchAtIgnoringCase(s: string, pat: string, i: int) {
    0 <= i && i + |pat| <= |s| &&
    forall k :: 0 <= k < |pat| ==> LowerChar(s[i + k]) == LowerChar(pat[k])
  }

  /** Matching ignoring case is matching the lower-cased pattern in the lower-cased text. */
  lemma MatchIgnoringCaseIsLowerMatch(s: string, pat: string, i: int)
    ensures MatchAtIgnoringCase(s, pat, i) <==> IsAt(Lower(s), Lower(pat), i)
  {
  }
}
